=== FILE: README.md ===
# Vocabulary query endpoint of plone.app.widgets, in Dafny

This project models `VocabularyView.__call__` from plone.app.widgets. The
endpoint takes a vocabulary `name` and optional `query`, `attributes` and
`batch` parameters. It works in stages:

- It refuses names outside a fixed permission table.
- It raises Unauthorized when the caller lacks the mapped permission.
- It looks the factory up in a registry.
- It calls the factory with `(context)`, `(context, query)` or
  `(context, query, batch)`, depending on the factory's argument names.
- It slices a slicable vocabulary to the requested page.
- It projects every item into a row. The default row is `{id, text}`.
  With attributes, the row is built from `key:field` directives, under a
  deny-list of fields and an allow-list of callables.
- It reports a `total`.

The model is a set of pure functions, one module per stage:

| module | file | stage |
|---|---|---|
| `Values` | values.dfy | Python values (`Value`), truthiness, dict lookup, `Option`/`Result` |
| `Text` | text.dfy | `strip`, `startswith`/`endswith`, substring `in`, `split`/`join` |
| `Params` | params.dfy | `_parseJSON` and the comma split of `attributes` |
| `Gate` | gate.dfy | the permission table and the four ordered gate checks |
| `Providers` | providers.dfy | factories, vocabularies and items; the choice of calling convention |
| `Batching` | batching.dfy | the `page`/`size` test, Python slice semantics, the page window |
| `Projection` | projection.dfy | default rows, directive rows, the deny-list and the allow-list |
| `VocabularyView` | view.dfy | the whole request, from `Call(req, env)` to an `Outcome` |

Things the Python code gets from its environment become parameters of
`VocabularyView.Env`:

- `granted` is the permission check on the context.
- `registry` is the factory registry.
- `physicalPath` is the context's physical path.
- `parse` is the JSON parser. It returns None where `json.loads` raises.

A factory is a `Providers.Provider`. It holds the argument names of its
`__call__` and its reply to each of the three calling conventions. The reply
is either a vocabulary or a raised TypeError, ParseError or other error. A
vocabulary holds a slicable flag, its length (None where `len()` raises
AttributeError) and its items. Each item holds a token, a title and a value;
the value maps attribute names to `Plain(v)` or `Callable(result)`.

An `Outcome` is one of:

- the `{"error": m}` body;
- `RaiseUnauthorized`;
- `SoftError`, the `VocabularyView.error` body `{results: [], total: 0, error: true}`;
- `Results(rows, total, invoked)`, where `invoked` lists the callables called
  while building the rows;
- `Crash(fault)`, for a Python exception that escapes the view.

Where the code may surprise a reader, the model follows the code:

- `_parseJSON` returns the stripped text, not the original, when the text is
  not bracket-delimited.
- A reported length of 0 is treated like an unknown length, so `total` falls
  back to the number of rows.
- The `path` value loses `len(base_path)` leading characters. The code never
  checks that the value starts with the base path.
- A `path` directive on a value that has no `getPath` slices None. That
  raises outside any `try`, so the model returns `Crash(UnsliceablePath)`.
- Several other cases raise outside any `try`, and each is a `Crash`:
  - a malformed JSON parameter;
  - a non-iterable `attributes`;
  - a non-string directive;
  - a batch that cannot be tested with `in`;
  - on a slicable vocabulary, a batch naming both `page` and `size` whose
    `page`/`size` are not integers, or a text or list batch that names both.
- Errors inside the item loop only happen when there is at least one item.
- `page` and `size` are not checked at all. A page of 0 or below, or a
  negative size, gives Python's negative-index slice, and the model
  computes exactly that.

## Model

| member | source | states |
|---|---|---|
| Text.Strip | plone/app/widgets/browser.py:20 | the stripped text has no whitespace at either end, and the input is that text with only whitespace before and after it |
| Text.StripUnique | plone/app/widgets/browser.py:20 | any whitespace padding around a trimmed string is removed exactly: stripping recovers that string |
| Text.StripIdempotent | plone/app/widgets/browser.py:20 | stripping twice gives the same as stripping once |
| Params.ParseJson | plone/app/widgets/browser.py:18-24 | a non-string is returned unchanged; a string goes to the parser only when its stripped form starts with `{` and ends with `}`, or starts with `[` and ends with `]`; any other string comes back stripped; a parser failure escapes |
| Params.LooksLikeJsonNeedsBothEnds | plone/app/widgets/browser.py:21-22 | bracket-delimited text has at least two characters: an opening bracket first and a closing one last |
| Params.ParserOnlySeesJsonLikeText | plone/app/widgets/browser.py:18-24 | when the bracket test fails, the result does not depend on the parser at all |
| Params.PlainTextIsFixedPoint | plone/app/widgets/browser.py:20-24 | decoding the stripped answer for non-JSON text again changes nothing |
| Text.Split | plone/app/widgets/browser.py:77 | the comma split yields at least one piece, and no piece contains a comma |
| Text.JoinSplit | plone/app/widgets/browser.py:77 | joining the pieces with commas gives back the split string |
| Text.SplitJoin | plone/app/widgets/browser.py:77 | splitting comma-free pieces joined by commas gives back the pieces |
| Params.DecodeAttributes | plone/app/widgets/browser.py:75-77 | decoding fails exactly when `_parseJSON` does; a non-empty plain string becomes a list of comma-free directive strings; any other decoded value is kept as it is |
| Params.AttributeSplitRoundTrip | plone/app/widgets/browser.py:76-77 | the directives of a plain `attributes` string, joined with commas, are the decoded string |
| Gate.Check | plone/app/widgets/browser.py:60-71 | a missing or empty name is refused first; a name outside the permission table is refused whatever the permission and the registry hold; a denied permission is decided before the registry is consulted; an admitted name yields the factory registered under it |
| VocabularyView.Call | plone/app/widgets/browser.py:60-71 | the reply is "No factory provided." for a missing name and "Vocabulary lookup not allowed" for an unlisted one; Unauthorized is raised exactly when an allow-listed name lacks its permission; a missing factory gets the message naming it; every callable invoked is allow-listed |
| VocabularyView.NoSuchFactory | plone/app/widgets/browser.py:70-71 | the message for a missing factory contains the requested name |
| Providers.SelectInvocation | plone/app/widgets/browser.py:79-89 | `(context, query, batch)` exactly when the query is truthy and the third and fourth argument names are `query` and `batch`; `(context, query)` when only the third matches; `(context)` otherwise; query and batch are passed unchanged |
| VocabularyView.InvocationErrorIsSoft | plone/app/widgets/browser.py:80-91 | a TypeError or ParseError from the factory call yields exactly the soft error reply `{results: [], total: 0, error: true}`; any other exception from the call escapes the view |
| VocabularyView.Decode | plone/app/widgets/browser.py:74-78 | query, attributes and batch are decoded in that order; the request fails with MalformedJson exactly when one of them fails to parse |
| Batching.Contains | plone/app/widgets/browser.py:98 | Python `in`: substring for text, element for a list, key for a dict; any other value raises TypeError |
| Batching.Requested | plone/app/widgets/browser.py:98-99 | batching is requested exactly when both `size` and `page` are in the batch; a dict missing either turns batching off without error |
| Values.LookupDistinct | plone/app/widgets/browser.py:102-103 | on a dict whose keys are distinct, as a decoded JSON object's are, looking up `page` or `size` yields the value stored under that key, wherever its entry sits |
| Batching.IntOf | plone/app/widgets/browser.py:102-103 | ints and bools take part in the page arithmetic; any other value raises TypeError |
| Batching.Bound | plone/app/widgets/browser.py:104 | a slice bound is clamped into `[0, n]`, and a negative bound counts from the end |
| Batching.PySlice | plone/app/widgets/browser.py:104 | the slice is the contiguous run of items from the normalised start up to the normalised end, and it is empty exactly when those bounds cross |
| Batching.Page | plone/app/widgets/browser.py:100-104 | a dict batch with integer `page` and `size` slices from `(page-1)*size` to that plus `size`; text or a list as batch raises TypeError |
| Batching.Window | plone/app/widgets/browser.py:102-104 | the page a reader expects: the `min(size, n - start)` items that follow `start` in order, or none when `start` is past the end |
| Batching.SliceWindow | plone/app/widgets/browser.py:103-104 | for a non-negative start and size, Python's slice `[start:start + size]` is exactly the window at `start`, however far it runs past the end |
| Batching.PageWindow | plone/app/widgets/browser.py:102-104 | for `page >= 1` and `size >= 0`, Python's slice is exactly that page window, so an out-of-range page gives no items and no error |
| VocabularyView.Batched | plone/app/widgets/browser.py:98-104 | batching never adds items; without both `page` and `size`, or on a vocabulary that is not slicable, all items are kept; a batch naming both on a slicable vocabulary gives exactly the page slice, or its error when the batch is not a dict of integers |
| VocabularyView.UnusableBatchIsIgnored | plone/app/widgets/browser.py:98-100 | a batch without `page` or `size`, or on a vocabulary that is not slicable, gives the same reply as no batch |
| VocabularyView.PageBatch | plone/app/widgets/browser.py:98-104 | a dict batch with a 1-based integer `page` and a non-negative integer `size` on a slicable vocabulary keeps exactly the page window |
| VocabularyView.PageOfDefaultRows | plone/app/widgets/browser.py:93-104 | on a slicable vocabulary with a valid page, the rows are the default rows of exactly the page window; `total` is the length from before slicing when that length is non-zero |
| VocabularyView.PageOfCustomRows | plone/app/widgets/browser.py:93-130 | on a slicable vocabulary with a valid page and with `attributes` given, the directive rows and calls come from the items of the page window only, and a directive that raises on one of them makes the reply raise; `total` is the length from before slicing when that length is non-zero |
| Projection.ParseDirectiveSplits | plone/app/widgets/browser.py:113-115 | a directive with a colon splits at its first colon (the key holds no colon, and key `:` field is the directive); a directive without one is both key and field |
| Projection.DropPrefix | plone/app/widgets/browser.py:128 | Python's `val[n:]` on text or a list, empty once `n` passes the end; any other value raises |
| Projection.Finish | plone/app/widgets/browser.py:127-128 | only the `path` key is trimmed, by the length of the base path |
| Projection.Resolve | plone/app/widgets/browser.py:113-129 | a non-string directive raises; a callable is invoked only if it is allow-listed and present on the value |
| Projection.ResolveSafety | plone/app/widgets/browser.py:113-129 | a deny-listed field is skipped before anything is read; a callable outside the allow-list is skipped and never called; a written key is the directive's key; a called name is the name the directive reads, and an uncalled value is a plain attribute |
| Projection.ResolveValue | plone/app/widgets/browser.py:120-129 | for a key other than `path`, a plain attribute is stored as it is, and an allow-listed callable is called and its result stored, under the directive's key |
| Projection.PathDirective | plone/app/widgets/browser.py:118-128 | a `path` key reads `getPath` whatever field it names, calls it when callable or takes it as it is otherwise, and stores it with the base path's length dropped from the front, for text and lists alike; when that value cannot be sliced (None, a number, a dict, or no `getPath` at all) the request crashes |
| Projection.Steps | plone/app/widgets/browser.py:112-129 | the directives are resolved in order; this succeeds exactly when every directive resolves, the i-th step is the i-th directive's effect, and a failure carries the fault of the first directive that raises |
| Projection.FoldKeys | plone/app/widgets/browser.py:111-129 | a key is in the row built from a run of steps exactly when some step writes it |
| Projection.FoldLastWins | plone/app/widgets/browser.py:111-129 | a key holds the value put there by the last step that writes it |
| Projection.FoldCallsExact | plone/app/widgets/browser.py:121-125 | a row records a callable exactly when one of its steps calls it |
| Projection.FoldCallsSafe | plone/app/widgets/browser.py:121-125 | when every step calls only allow-listed callables of the value, so does the whole row |
| Projection.ProjectItem | plone/app/widgets/browser.py:110-130 | an item's row is built exactly when every directive resolves; every callable invoked is allow-listed and present on the value |
| Projection.ProjectItemKeys | plone/app/widgets/browser.py:111-129 | a key is in an item's row exactly when some directive writes it |
| Projection.ProjectItemCallsExact | plone/app/widgets/browser.py:112-129 | an item's row records a callable exactly when one of the directives invokes it on that item |
| Projection.ProjectItemLastWins | plone/app/widgets/browser.py:112-129 | a key holds the value of the last directive that writes it |
| Projection.ResolveSeesOnlyExposure | plone/app/widgets/browser.py:116-126 | one directive's effect depends only on the item's plain attributes, the results of its allow-listed callables, and which names are callable, never on a deny-listed field |
| Projection.StepsSeeOnlyExposure | plone/app/widgets/browser.py:116-126 | the resolved steps of an item are the same for two values projection cannot tell apart |
| Projection.ProjectItemSeesOnlyExposure | plone/app/widgets/browser.py:116-126 | two item values that agree outside the deny-list and outside non-allow-listed callables' results give the same row |
| Projection.CustomRowsSeeOnlyExposure | plone/app/widgets/browser.py:108-130 | the same holds for the rows of a whole vocabulary |
| VocabularyView.BatchesStayIndistinguishable | plone/app/widgets/browser.py:98-104 | batching two indistinguishable item lists succeeds for both or neither, and keeps them indistinguishable |
| VocabularyView.ReplySeesOnlyExposure | plone/app/widgets/browser.py:93-136 | the reply never depends on a deny-listed field of any item or on what a non-allow-listed callable would return |
| Projection.DefaultRowShape | plone/app/widgets/browser.py:133 | a default row holds exactly `id` (the token) and `text` (the title) |
| Projection.DefaultRows | plone/app/widgets/browser.py:131-133 | one default row per item, in iteration order |
| Projection.Directives | plone/app/widgets/browser.py:112 | a list yields its elements as directives; a dict yields its keys and text its characters; anything else is not iterable |
| Projection.CollectInvokedExact | plone/app/widgets/browser.py:109-130 | the reply reports a callable as invoked exactly when some item's row records it |
| Projection.Collect | plone/app/widgets/browser.py:109-130 | the rows are the items' rows in iteration order, built exactly when every item's row is; when each item calls only allow-listed names, so does the whole reply |
| Projection.CustomRows | plone/app/widgets/browser.py:108-130 | one row per item, in order, each the item's directive row; an empty vocabulary never fails; every invoked callable is allow-listed |
| Projection.Project | plone/app/widgets/browser.py:108-133 | a falsy `attributes` gives default rows and invokes nothing; a truthy one gives directive rows; there is one row per item either way |
| VocabularyView.ShapeCrashes | plone/app/widgets/browser.py:98-130 | the reply raises exactly when batching or projecting the batched items raises, with that fault; otherwise its rows and calls are the projection of the batched items |
| VocabularyView.Shape | plone/app/widgets/browser.py:93-141 | `total` is the known non-zero length from before slicing, otherwise the number of rows; with an honest known length, `total >= |results|`; rows never outnumber items, and equal them when no batching applies |
| VocabularyView.Serve | plone/app/widgets/browser.py:74-141 | a parameter that fails to decode makes the request raise MalformedJson; every callable invoked while answering an admitted request is allow-listed |
| VocabularyView.MalformedParameterCrashes | plone/app/widgets/browser.py:74-78 | an admitted request with a parameter that is not valid JSON raises MalformedJson out of the view, before any factory is called |
| VocabularyView.AdmittedReplyIsShape | plone/app/widgets/browser.py:74-141 | for an admitted request whose parameters decode and whose factory returns a vocabulary, the reply is that vocabulary shaped with the request's decoded `attributes` and `batch` and the context's physical path joined by `/` |
| VocabularyView.BareDecodes | plone/app/widgets/browser.py:74-78 | absent parameters decode to empty text and never reach the parser |
| VocabularyView.UnbatchedDefaultShape | plone/app/widgets/browser.py:93-136 | without attributes or batch, every item becomes a default row in order and nothing is invoked; `total` is the known non-zero length, otherwise the item count |
| VocabularyView.BareRequestListsEveryItem | plone/app/widgets/browser.py:131-136 | with no query, attributes or batch, the factory is called with the context alone, every item is listed as `{id: token, text: title}`, and `total` is the item count |

## Left out

- The content-type header (line 58) and the view plumbing are transport concerns and are not modelled.
- `json.loads` is the parameter `Env.parse`, and `json.dumps` is not modelled: `Outcome` stands for the serialised reply. The parse/serialise round trip of structured parameters is therefore not stated.
- The permission check, the registry lookup, the ISlicableVocabulary test and the argument-name inspection are foreign to the view. They are `Env.granted`, `Env.registry`, `Vocabulary.slicable` and `Provider.args`.
- Concrete vocabulary factories are opaque functions from the calling convention to a reply.
- Text.Strip: strips only the whitespace of Python 2 byte strings (space, tab, newline, carriage return, vertical tab, form feed), not the wider Unicode whitespace set.
- A dict is modelled by its entries in iteration order. Python 2 leaves that order unspecified, and it only matters for a dict given as `attributes`.
- `len()` raising anything other than AttributeError is not modelled. Neither is an exception from iterating the vocabulary, from `getattr`, or from an invoked callable.
- JSON floats are not part of `Value`. The model does not cover a float `page` or `size`, which Python would reject when slicing.
- A registered factory is always treated as truthy (line 69). A factory object that is false in Python is not modelled.

=== FILE: batching.dfy ===
/** Page/size batching of a slicable vocabulary
    (plone/app/widgets/browser.py, lines 98-104), with Python's membership
    test, integer arithmetic and slice semantics written out. */
module Batching {
  import opened Values
  import opened Text

  /** Python's `key in container` for the values a decoded batch can be:
      substring for text, element for a list, key for a dict; anything else
      raises TypeError. */
  function Contains(container: Value, key: string): (r: Result<bool>)
    ensures r.Ok? <==> container.VStr? || container.VList? || container.VDict?
    ensures container.VDict? ==> r == Ok(HasKey(container.entries, key))
    ensures container.VList? ==> r == Ok(VStr(key) in container.elems)
    ensures container.VStr? ==> r == Ok(Occurs(key, container.s))
  {
    match container
    case VStr(s) => Ok(Occurs(key, s))
    case VList(xs) => Ok(VStr(key) in xs)
    case VDict(es) => Ok(HasKey(es, key))
    case _ => Err(BadBatch)
  }

  /** Line 98: the batch is kept only when it holds both `size` and `page`;
      a partial batch switches batching off rather than failing. */
  function Requested(batch: Value): (r: Result<bool>)
    ensures r.Ok? <==> batch.VStr? || batch.VList? || batch.VDict?
    ensures r.Ok? ==>
      (r.value <==> Contains(batch, "size") == Ok(true) && Contains(batch, "page") == Ok(true))
    ensures batch.VDict? ==> r == Ok(HasKey(batch.entries, "size") && HasKey(batch.entries, "page"))
  {
    var hasSize :- Contains(batch, "size");
    if !hasSize then Ok(false)
    else Contains(batch, "page")
  }

  /** A batch entry used in arithmetic: a Python bool is an int; any other
      non-integer makes the arithmetic or the slice raise TypeError. */
  function IntOf(v: Option<Value>): (r: Result<int>)
    ensures r.Ok? <==> v.Some? && (v.value.VInt? || v.value.VBool?)
    ensures r.Ok? && v.value.VInt? ==> r.value == v.value.i
    ensures r.Ok? && v.value.VBool? ==> r.value == (if v.value.b then 1 else 0)
  {
    match v
    case Some(VInt(i)) => Ok(i)
    case Some(VBool(b)) => Ok(if b then 1 else 0)
    case _ => Err(BadBatch)
  }

  /** Python's normalisation of a slice bound against a length `n`: a
      negative bound counts from the end, and the result is clamped to [0, n]. */
  function Bound(i: int, n: nat): (k: nat)
    ensures k <= n
    ensures 0 <= i <= n ==> k == i
    ensures i > n ==> k == n
    ensures i < 0 ==> k == (if i + n < 0 then 0 else i + n)
  {
    if i < 0 then (if i + n < 0 then 0 else i + n)
    else if i > n then n
    else i
  }

  /** Python's `xs[start:end]`: the elements between the two normalised
      bounds, or nothing when they cross. */
  function PySlice<T>(xs: seq<T>, start: int, end: int): (ys: seq<T>)
    ensures |ys| <= |xs|
    ensures Bound(start, |xs|) + |ys| <= |xs|
    ensures forall j :: 0 <= j < |ys| ==> ys[j] == xs[Bound(start, |xs|) + j]
    ensures Bound(start, |xs|) < Bound(end, |xs|) <==> ys != []
    ensures |ys| == (if Bound(start, |xs|) < Bound(end, |xs|) then Bound(end, |xs|) - Bound(start, |xs|) else 0)
  {
    var a := Bound(start, |xs|);
    var b := Bound(end, |xs|);
    if a < b then xs[a..b] else []
  }

  /** Lines 102-104: `vocabulary[start:end]` with `start = (page - 1) * size`
      and `end = start + size`, read from a dict batch. Indexing text or a
      list with a string raises TypeError. */
  function Page<T>(items: seq<T>, batch: Value): (r: Result<seq<T>>)
    ensures r.Ok? <==>
      batch.VDict? && IntOf(Lookup(batch.entries, "page")).Ok? && IntOf(Lookup(batch.entries, "size")).Ok?
    ensures r.Ok? ==>
      var page := IntOf(Lookup(batch.entries, "page")).value;
      var size := IntOf(Lookup(batch.entries, "size")).value;
      r.value == PySlice(items, PageStart(page, size), PageStart(page, size) + size)
  {
    match batch
    case VDict(es) =>
      var page :- IntOf(Lookup(es, "page"));
      var size :- IntOf(Lookup(es, "size"));
      var start := PageStart(page, size);
      Ok(PySlice(items, start, start + size))
    case _ => Err(BadBatch)
  }

  /** The first index of a 1-based page of `size` items. */
  function PageStart(page: int, size: int): (start: int)
    ensures page >= 1 && size >= 0 ==> start >= 0
  {
    (page - 1) * size
  }

  function Min(a: int, b: int): int {
    if a <= b then a else b
  }

  /** The items of a page as a reader expects them: the half-open window
      `[start, start + size)` clamped to the items, and nothing at all for a
      start past the end. */
  function Window<T>(items: seq<T>, start: nat, size: nat): (w: seq<T>)
    ensures |w| == (if start >= |items| then 0 else Min(size, |items| - start))
    ensures forall j :: 0 <= j < |w| ==> w[j] == items[start + j]
  {
    if start >= |items| then [] else items[start..Min(start + size, |items|)]
  }

  /** Python's slice at lines 102-104 is exactly that window for
      `start = (page-1)*size`: out-of-range pages give no items rather than
      an error. */
  lemma PageWindow<T>(items: seq<T>, page: int, size: int)
    requires page >= 1 && size >= 0
    ensures PySlice(items, PageStart(page, size), PageStart(page, size) + size)
      == Window(items, PageStart(page, size), size)
  {
  }

  /** A slice with a non-negative start and length is the window there. */
  lemma SliceWindow<T>(items: seq<T>, start: nat, size: nat)
    ensures PySlice(items, start, start + size) == Window(items, start, size)
  {
  }
}

=== FILE: gate.dfy ===
/** The authorisation and lookup gate in front of every vocabulary query
    (plone/app/widgets/browser.py, lines 12-16 and 60-71). */
module Gate {
  import opened Values
  import opened Providers

  /** The only vocabularies the view will serve, each with the permission
      the caller must hold on the context. */
  const Permissions: map<string, string> := map[
    "plone.app.vocabularies.Users" := "Modify portal content",
    "plone.app.vocabularies.Catalog" := "View",
    "plone.app.vocabularies.Keywords" := "Modify portal content"
  ]

  datatype Decision =
    | NoName                  // `name` missing or empty
    | NotAllowed              // `name` is not in the permission table
    | Denied                  // the caller lacks the required permission
    | NoFactory(name: string) // nothing is registered under `name`
    | Admitted(provider: Provider)

  /** The four checks, in order: a name is given, it is allow-listed, the
      permission is granted (`granted` answers for the context), and a factory
      is registered. Refusal for a name outside the table does not depend on
      the permission or the registry, and the permission is decided before the
      registry is consulted. */
  function Check(name: Option<string>, granted: string -> bool, registry: map<string, Provider>): (d: Decision)
    ensures d.NoName? <==> name.None? || name.value == ""
    ensures d.NotAllowed? <==> name.Some? && name.value != "" && name.value !in Permissions
    ensures d.Denied? <==> name.Some? && name.value in Permissions && !granted(Permissions[name.value])
    ensures d.NoFactory? <==>
      name.Some? && name.value in Permissions && granted(Permissions[name.value]) && name.value !in registry
    ensures d.NoFactory? ==> d.name == name.value
    ensures d.Admitted? ==>
      name.Some? && name.value in Permissions && granted(Permissions[name.value])
      && name.value in registry && d.provider == registry[name.value]
  {
    match name
    case None => NoName
    case Some(n) =>
      if n == "" then NoName
      else if n !in Permissions then NotAllowed
      else if !granted(Permissions[n]) then Denied
      else if n !in registry then NoFactory(n)
      else Admitted(registry[n])
  }
}

=== FILE: params.dfy ===
/** Decoding of the `query`, `attributes` and `batch` request parameters:
    `_parseJSON` and the comma split applied to a plain `attributes` string. */
module Params {
  import opened Values
  import opened Text

  /** The bracket heuristic `_parseJSON` uses to decide that stripped text is JSON. */
  predicate LooksLikeJson(t: string) {
    (StartsWith(t, "{") && EndsWith(t, "}")) || (StartsWith(t, "[") && EndsWith(t, "]"))
  }

  /** True when `_parseJSON` hands `v` to the JSON parser. */
  predicate ReachesParser(v: Value) {
    v.VStr? && LooksLikeJson(Strip(v.s))
  }

  /** `_parseJSON(v)`. The JSON parser is the parameter `parse`; it answers
      None where `json.loads` raises, and that exception is not caught. */
  function ParseJson(v: Value, parse: string -> Option<Value>): (r: Result<Value>)
    ensures !v.VStr? ==> r == Ok(v)
    ensures v.VStr? && !ReachesParser(v) ==> r == Ok(VStr(Strip(v.s)))
    ensures ReachesParser(v) ==>
      match parse(Strip(v.s))
      case Some(j) => r == Ok(j)
      case None => r == Err(MalformedJson)
  {
    match v
    case VStr(s) =>
      var t := Strip(s);
      if LooksLikeJson(t) then
        match parse(t)
        case Some(j) => Ok(j)
        case None => Err(MalformedJson)
      else Ok(VStr(t))
    case _ => Ok(v)
  }

  /** Bracket-delimited text is at least two characters long, so a lone
      bracket is never handed to the parser. */
  lemma LooksLikeJsonNeedsBothEnds(t: string)
    requires LooksLikeJson(t)
    ensures |t| >= 2
    ensures t[0] == '{' || t[0] == '['
    ensures t[|t| - 1] == '}' || t[|t| - 1] == ']'
  {
    assert t[..1][0] == t[0];
    assert t[|t| - 1..][0] == t[|t| - 1];
  }

  /** Only text that passes the bracket test reaches the parser: on any other
      value the outcome does not depend on the parser at all. */
  lemma ParserOnlySeesJsonLikeText(v: Value, p1: string -> Option<Value>, p2: string -> Option<Value>)
    requires !ReachesParser(v)
    ensures ParseJson(v, p1) == ParseJson(v, p2)
  {
  }

  /** Text that is not JSON-like comes back stripped, and decoding that
      answer again changes nothing. */
  lemma {:induction false} PlainTextIsFixedPoint(v: Value, parse: string -> Option<Value>)
    requires v.VStr? && !ReachesParser(v)
    ensures ParseJson(ParseJson(v, parse).value, parse) == ParseJson(v, parse)
  {
    StripIdempotent(v.s);
  }

  /** The directives a comma-separated `attributes` string stands for. */
  function Pieces(parts: seq<string>): (vs: seq<Value>)
    ensures |vs| == |parts|
    ensures forall i :: 0 <= i < |parts| ==> vs[i] == VStr(parts[i])
  {
    if parts == [] then [] else [VStr(parts[0])] + Pieces(parts[1..])
  }

  /** `attributes` decoded: `_parseJSON`, then a non-empty plain string is
      split on commas into a list of directive strings. */
  function DecodeAttributes(v: Value, parse: string -> Option<Value>): (r: Result<Value>)
    ensures r.Ok? <==> ParseJson(v, parse).Ok?
    ensures r.Ok? ==> var d := ParseJson(v, parse).value;
      if d.VStr? && d.s != "" then
        && r.value.VList?
        && |r.value.elems| >= 1
        && (forall i :: 0 <= i < |r.value.elems| ==> r.value.elems[i].VStr? && ',' !in r.value.elems[i].s)
      else r.value == d
  {
    var d :- ParseJson(v, parse);
    if d.VStr? && d.s != "" then Ok(VList(Pieces(Split(d.s, ',')))) else Ok(d)
  }

  /** The comma split of a plain `attributes` string loses nothing: joining
      the directives with commas gives the decoded string back. */
  lemma {:induction false} AttributeSplitRoundTrip(v: Value, parse: string -> Option<Value>)
    requires ParseJson(v, parse).Ok?
    requires ParseJson(v, parse).value.VStr? && ParseJson(v, parse).value.s != ""
    ensures DecodeAttributes(v, parse) == Ok(VList(Pieces(Split(ParseJson(v, parse).value.s, ','))))
    ensures Join(Split(ParseJson(v, parse).value.s, ','), ',') == ParseJson(v, parse).value.s
  {
    JoinSplit(ParseJson(v, parse).value.s, ',');
  }
}

=== FILE: projection.dfy ===
/** Projection of vocabulary items into reply rows
    (plone/app/widgets/browser.py, lines 27-28 and 106-133): the default
    `{id, text}` shape, and the attribute-directive shape with its deny-list
    of fields, its allow-list of callables and its `path` trimming. */
module Projection {
  import opened Values
  import opened Providers

  /** Fields that are never read from an item, whatever the directive asks. */
  const UnsafeMetadata: seq<string> := ["Creator", "listCreators"]

  /** The only callables projection will invoke. */
  const SafeCallableMetadata: seq<string> := ["getURL", "getPath"]

  /** A directive `key:field` split at its first colon; a directive without a
      colon names the same key and field. */
  datatype Directive = Directive(key: string, field: string)

  function ParseDirective(s: string): Directive {
    match SplitColon(s)
    case (_, None) => Directive(s, s)
    case (k, Some(f)) => Directive(k, f)
  }

  /** The text before the first colon and, when there is one, the text
      after it. */
  function SplitColon(s: string): (string, Option<string>) {
    if s == [] then ([], None)
    else if s[0] == ':' then ([], Some(s[1..]))
    else
      var (k, f) := SplitColon(s[1..]);
      ([s[0]] + k, f)
  }

  lemma {:induction false} SplitColonSplits(s: string)
    ensures ':' !in SplitColon(s).0
    ensures SplitColon(s).1.None? <==> ':' !in s
    ensures SplitColon(s).1.None? ==> SplitColon(s).0 == s
    ensures SplitColon(s).1.Some? ==> s == SplitColon(s).0 + ":" + SplitColon(s).1.value
  {
    if s != [] && s[0] != ':' {
      SplitColonSplits(s[1..]);
      assert s == [s[0]] + s[1..];
    }
  }

  /** `attr.split(':', 1)`: the key holds no colon, and key, colon and field
      spell the directive back. */
  lemma ParseDirectiveSplits(s: string)
    ensures ':' !in s ==> ParseDirective(s) == Directive(s, s)
    ensures ':' in s ==> ':' !in ParseDirective(s).key && s == ParseDirective(s).key + ":" + ParseDirective(s).field
  {
    SplitColonSplits(s);
  }

  /** The attribute the directive reads: `getPath` for the `path` key,
      otherwise the named field. */
  function ReadName(d: Directive): string {
    if d.key == "path" then "getPath" else d.field
  }

  /** `getattr(value, name, None)`. */
  function GetAttr(obj: map<string, Attr>, name: string): Attr {
    if name in obj then obj[name] else Plain(VNone)
  }

  /** `val[n:]` for the value of a `path` directive; slicing None, a number,
      a bool or a dict raises TypeError. */
  function DropPrefix(v: Value, n: nat): (r: Result<Value>)
    ensures r.Ok? <==> v.VStr? || v.VList?
    ensures v.VStr? ==> r == Ok(VStr(if n <= |v.s| then v.s[n..] else []))
    ensures v.VList? ==> r == Ok(VList(if n <= |v.elems| then v.elems[n..] else []))
  {
    match v
    case VStr(s) => Ok(VStr(if n <= |s| then s[n..] else []))
    case VList(xs) => Ok(VList(if n <= |xs| then xs[n..] else []))
    case _ => Err(UnsliceablePath)
  }

  /** The effect of one directive on one item: nothing, or one key written
      with a value, together with the callable invoked to get it, if any. */
  datatype Step = Skip | Put(key: string, val: Value, call: Option<string>)

  /** The stored value: the `path` key drops as many leading characters as
      the context's physical path has, without comparing them. */
  function Finish(key: string, v: Value, basePath: string): (r: Result<Value>)
    ensures key != "path" ==> r == Ok(v)
    ensures key == "path" ==> r == DropPrefix(v, |basePath|)
  {
    if key == "path" then DropPrefix(v, |basePath|) else Ok(v)
  }

  /** A step's call, if any, is to an allow-listed callable of the value. */
  predicate SafeStep(step: Step, obj: map<string, Attr>) {
    step.Put? && step.call.Some? ==>
      step.call.value in SafeCallableMetadata && step.call.value in obj && obj[step.call.value].Callable?
  }

  /** One pass of the inner loop, lines 113-129. */
  function Resolve(dv: Value, obj: map<string, Attr>, basePath: string): (r: Result<Step>)
    ensures !dv.VStr? ==> r == Err(BadAttributes)
    ensures r.Ok? ==> SafeStep(r.value, obj)
  {
    match dv
    case VStr(s) => ResolveDirective(ParseDirective(s), obj, basePath)
    case _ => Err(BadAttributes)
  }

  /** A deny-listed field is skipped before anything is read; a callable is
      invoked only when its name is allow-listed and is otherwise skipped; a
      written key is the directive's key. */
  lemma ResolveSafety(dv: Value, obj: map<string, Attr>, basePath: string)
    ensures var r := Resolve(dv, obj, basePath);
      && (dv.VStr? && ParseDirective(dv.s).field in UnsafeMetadata ==> r == Ok(Skip))
      && ((dv.VStr? && GetAttr(obj, ReadName(ParseDirective(dv.s))).Callable?
           && ReadName(ParseDirective(dv.s)) !in SafeCallableMetadata) ==> r == Ok(Skip))
      && (r.Ok? && r.value.Put? ==>
           && dv.VStr?
           && r.value.key == ParseDirective(dv.s).key
           && ParseDirective(dv.s).field !in UnsafeMetadata
           && ReadName(ParseDirective(dv.s)) !in UnsafeMetadata)
      && (r.Ok? && r.value.Put? && r.value.call.Some? ==>
           && r.value.call.value == ReadName(ParseDirective(dv.s))
           && r.value.call.value in SafeCallableMetadata
           && GetAttr(obj, r.value.call.value).Callable?)
      && (r.Ok? && r.value.Put? && r.value.call.None? ==>
           GetAttr(obj, ReadName(ParseDirective(dv.s))).Plain?)
  {
  }

  function ResolveDirective(d: Directive, obj: map<string, Attr>, basePath: string): (r: Result<Step>)
    ensures r.Ok? ==> SafeStep(r.value, obj)
  {
    if d.field in UnsafeMetadata then Ok(Skip)
    else
      var name := ReadName(d);
      match GetAttr(obj, name)
      case Callable(result) =>
        if name in SafeCallableMetadata then
          var v :- Finish(d.key, result, basePath);
          Ok(Put(d.key, v, Some(name)))
        else Ok(Skip)
      case Plain(v0) =>
        var v :- Finish(d.key, v0, basePath);
        Ok(Put(d.key, v, None))
  }

  /** Lines 118-128: a `path` key reads `getPath` whatever field it names,
      calls it when it is callable, and drops as many leading characters as
      the base path has from what it gets; a value that cannot be sliced
      (None, a number, a dict), including the None of an item without
      `getPath`, makes the slice raise. */
  lemma PathDirective(s: string, obj: map<string, Attr>, basePath: string)
    requires ParseDirective(s).key == "path" && ParseDirective(s).field !in UnsafeMetadata
    ensures var a := GetAttr(obj, "getPath");
      var x := if a.Callable? then a.result else a.v;
      Resolve(VStr(s), obj, basePath) ==
        match DropPrefix(x, |basePath|)
        case Err(f) => Err(f)
        case Ok(y) => Ok(Put("path", y, if a.Callable? then Some("getPath") else None))
    ensures GetAttr(obj, "getPath").Callable? && GetAttr(obj, "getPath").result.VStr? ==>
      var p := GetAttr(obj, "getPath").result.s;
      Resolve(VStr(s), obj, basePath)
        == Ok(Put("path", VStr(if |basePath| <= |p| then p[|basePath|..] else []), Some("getPath")))
    ensures (GetAttr(obj, "getPath").Plain? && GetAttr(obj, "getPath").v.VStr?) ==>
      var p := GetAttr(obj, "getPath").v.s;
      Resolve(VStr(s), obj, basePath)
        == Ok(Put("path", VStr(if |basePath| <= |p| then p[|basePath|..] else []), None))
    ensures "getPath" !in obj ==> Resolve(VStr(s), obj, basePath) == Err(UnsliceablePath)
  {
  }

  /** Lines 120-129 for a key other than `path`: the value stored is the
      plain attribute itself, or what the allow-listed callable returns. */
  lemma ResolveValue(s: string, obj: map<string, Attr>, basePath: string)
    requires ParseDirective(s).field !in UnsafeMetadata && ParseDirective(s).key != "path"
    ensures var d := ParseDirective(s);
      GetAttr(obj, d.field).Plain? ==>
        Resolve(VStr(s), obj, basePath) == Ok(Put(d.key, GetAttr(obj, d.field).v, None))
    ensures var d := ParseDirective(s);
      GetAttr(obj, d.field).Callable? && d.field in SafeCallableMetadata ==>
        Resolve(VStr(s), obj, basePath) == Ok(Put(d.key, GetAttr(obj, d.field).result, Some(d.field)))
  {
  }

  /** The row built for one item so far, and the callables invoked for it. */
  datatype Row = Row(fields: map<string, Value>, calls: seq<string>)

  function Apply(row: Row, step: Step): (next: Row)
    ensures next.calls == row.calls + (if step.Put? && step.call.Some? then [step.call.value] else [])
    ensures step.Skip? ==> next.fields == row.fields
    ensures step.Put? ==> next.fields == row.fields[step.key := step.val]
  {
    match step
    case Skip => row
    case Put(k, v, c) =>
      Row(row.fields[k := v], row.calls + (if c.Some? then [c.value] else []))
  }

  /** Every call recorded is to an allow-listed callable of the value. */
  predicate SafeCalls(calls: seq<string>, obj: map<string, Attr>) {
    forall c :: c in calls ==> c in SafeCallableMetadata && c in obj && obj[c].Callable?
  }

  /** Directive `i` raises `f`, and every directive before it resolves. */
  predicate FirstFailure(dirs: seq<Value>, obj: map<string, Attr>, basePath: string, i: int, f: Fault) {
    && 0 <= i < |dirs|
    && Resolve(dirs[i], obj, basePath) == Err(f)
    && forall j :: 0 <= j < i ==> Resolve(dirs[j], obj, basePath).Ok?
  }

  /** The directives resolved in order; the first one that raises aborts
      the item, and with it the request. */
  function Steps(dirs: seq<Value>, obj: map<string, Attr>, basePath: string): (r: Result<seq<Step>>)
    ensures r.Ok? <==> forall i :: 0 <= i < |dirs| ==> Resolve(dirs[i], obj, basePath).Ok?
    ensures r.Ok? ==> |r.value| == |dirs|
    ensures r.Ok? ==> forall i :: 0 <= i < |dirs| ==> r.value[i] == Resolve(dirs[i], obj, basePath).value
    ensures r.Err? ==> exists i :: FirstFailure(dirs, obj, basePath, i, r.fault)
  {
    if dirs == [] then Ok([])
    else
      match Resolve(dirs[0], obj, basePath)
      case Err(f) =>
        assert FirstFailure(dirs, obj, basePath, 0, f);
        Err(f)
      case Ok(step) =>
        match Steps(dirs[1..], obj, basePath)
        case Err(f) =>
          var i :| FirstFailure(dirs[1..], obj, basePath, i, f);
          assert forall j :: 0 < j <= i ==> dirs[j] == dirs[1..][j - 1];
          assert FirstFailure(dirs, obj, basePath, i + 1, f);
          Err(f)
        case Ok(rest) =>
          assert forall i :: 0 < i < |dirs| ==> dirs[i] == dirs[1..][i - 1];
          Ok([step] + rest)
  }

  /** The row the steps build, applied in order. */
  function Fold(steps: seq<Step>): Row {
    if steps == [] then Row(map[], [])
    else Apply(Fold(steps[..|steps| - 1]), steps[|steps| - 1])
  }

  /** Step `s` writes key `k`. */
  predicate Puts(s: Step, k: string) {
    s.Put? && s.key == k
  }

  lemma {:induction false} FoldKeys(steps: seq<Step>, k: string)
    ensures k in Fold(steps).fields <==> exists i :: 0 <= i < |steps| && Puts(steps[i], k)
  {
    if steps != [] {
      var n := |steps| - 1;
      var init := steps[..n];
      FoldKeys(init, k);
      if exists i :: 0 <= i < |init| && Puts(init[i], k) {
        var i :| 0 <= i < |init| && Puts(init[i], k);
        assert Puts(steps[i], k);
      }
      if exists i :: 0 <= i < |steps| && Puts(steps[i], k) {
        var i :| 0 <= i < |steps| && Puts(steps[i], k);
        if i < n {
          assert Puts(init[i], k);
        }
      }
    }
  }

  lemma {:induction false} FoldLastWins(steps: seq<Step>, k: string, i: nat)
    requires i < |steps| && Puts(steps[i], k)
    requires forall j :: i < j < |steps| ==> !Puts(steps[j], k)
    ensures k in Fold(steps).fields && Fold(steps).fields[k] == steps[i].val
  {
    var n := |steps| - 1;
    if i < n {
      var init := steps[..n];
      assert init[i] == steps[i];
      forall j | i < j < |init| ensures !Puts(init[j], k) {
        assert init[j] == steps[j];
      }
      FoldLastWins(init, k, i);
    }
  }

  lemma {:induction false} FoldCallsSafe(steps: seq<Step>, obj: map<string, Attr>)
    requires forall i :: 0 <= i < |steps| ==> SafeStep(steps[i], obj)
    ensures SafeCalls(Fold(steps).calls, obj)
  {
    if steps != [] {
      var n := |steps| - 1;
      var init := steps[..n];
      assert forall i :: 0 <= i < |init| ==> init[i] == steps[i];
      FoldCallsSafe(init, obj);
      assert SafeStep(steps[n], obj);
    }
  }

  /** The calls a row records are exactly the calls of its steps. */
  lemma {:induction false} FoldCallsExact(steps: seq<Step>, c: string)
    ensures c in Fold(steps).calls <==>
      exists i :: 0 <= i < |steps| && steps[i].Put? && steps[i].call == Some(c)
  {
    if steps != [] {
      var n := |steps| - 1;
      var init := steps[..n];
      FoldCallsExact(init, c);
      if exists i :: 0 <= i < |init| && init[i].Put? && init[i].call == Some(c) {
        var i :| 0 <= i < |init| && init[i].Put? && init[i].call == Some(c);
        assert steps[i] == init[i];
      }
      if exists i :: 0 <= i < |steps| && steps[i].Put? && steps[i].call == Some(c) {
        var i :| 0 <= i < |steps| && steps[i].Put? && steps[i].call == Some(c);
        if i < n {
          assert init[i] == steps[i];
        }
      }
    }
  }

  /** The row for one item: the directives applied in order, later ones
      overwriting earlier ones with the same key. The first failing directive
      aborts the whole request. */
  function ProjectItem(dirs: seq<Value>, obj: map<string, Attr>, basePath: string): (r: Result<Row>)
    ensures r.Ok? <==> forall i :: 0 <= i < |dirs| ==> Resolve(dirs[i], obj, basePath).Ok?
    ensures r.Ok? ==> SafeCalls(r.value.calls, obj)
  {
    match Steps(dirs, obj, basePath)
    case Err(f) => Err(f)
    case Ok(steps) =>
      FoldCallsSafe(steps, obj);
      Ok(Fold(steps))
  }

  /** Directive `dv` invokes callable `c` on this item. */
  predicate Invokes(dv: Value, obj: map<string, Attr>, basePath: string, c: string) {
    var r := Resolve(dv, obj, basePath);
    r.Ok? && r.value.Put? && r.value.call == Some(c)
  }

  /** An item's row records a callable exactly when some directive invokes
      it. */
  lemma ProjectItemCallsExact(dirs: seq<Value>, obj: map<string, Attr>, basePath: string, c: string)
    requires ProjectItem(dirs, obj, basePath).Ok?
    ensures c in ProjectItem(dirs, obj, basePath).value.calls <==>
      exists i :: 0 <= i < |dirs| && Invokes(dirs[i], obj, basePath, c)
  {
    var steps := Steps(dirs, obj, basePath).value;
    FoldCallsExact(steps, c);
    assert forall i :: 0 <= i < |dirs| ==>
      (Invokes(dirs[i], obj, basePath, c) <==> steps[i].Put? && steps[i].call == Some(c));
  }

  /** Directive `dv` writes key `k` on this item. */
  predicate Writes(dv: Value, obj: map<string, Attr>, basePath: string, k: string) {
    var r := Resolve(dv, obj, basePath);
    r.Ok? && Puts(r.value, k)
  }

  /** A key appears in an item's row exactly when some directive writes it. */
  lemma ProjectItemKeys(dirs: seq<Value>, obj: map<string, Attr>, basePath: string, k: string)
    requires ProjectItem(dirs, obj, basePath).Ok?
    ensures k in ProjectItem(dirs, obj, basePath).value.fields <==>
      exists i :: 0 <= i < |dirs| && Writes(dirs[i], obj, basePath, k)
  {
    var steps := Steps(dirs, obj, basePath).value;
    FoldKeys(steps, k);
    assert forall i :: 0 <= i < |dirs| ==> (Writes(dirs[i], obj, basePath, k) <==> Puts(steps[i], k));
  }

  /** Last write wins: a key's value comes from the last directive that
      writes that key. */
  lemma ProjectItemLastWins(dirs: seq<Value>, obj: map<string, Attr>, basePath: string, k: string, i: nat)
    requires ProjectItem(dirs, obj, basePath).Ok?
    requires i < |dirs| && Writes(dirs[i], obj, basePath, k)
    requires forall j :: i < j < |dirs| ==> !Writes(dirs[j], obj, basePath, k)
    ensures k in ProjectItem(dirs, obj, basePath).value.fields
    ensures ProjectItem(dirs, obj, basePath).value.fields[k] == Resolve(dirs[i], obj, basePath).value.val
  {
    var steps := Steps(dirs, obj, basePath).value;
    assert forall j :: i < j < |steps| ==> !Puts(steps[j], k) by {
      forall j | i < j < |steps| ensures !Puts(steps[j], k) {
        assert !Writes(dirs[j], obj, basePath, k);
      }
    }
    FoldLastWins(steps, k, i);
  }

  /** What projection can observe of an item's attribute: the value of a
      plain attribute, the result of an allow-listed callable, and of any
      other callable only the fact that it is callable. */
  function Exposed(obj: map<string, Attr>, name: string): Attr {
    match GetAttr(obj, name)
    case Plain(v) => Plain(v)
    case Callable(result) => if name in SafeCallableMetadata then Callable(result) else Callable(VNone)
  }

  /** Two item values that projection cannot tell apart: they agree on every
      exposed attribute outside the deny-list. */
  ghost predicate SameExposure(o1: map<string, Attr>, o2: map<string, Attr>) {
    forall name :: name !in UnsafeMetadata ==> Exposed(o1, name) == Exposed(o2, name)
  }

  lemma ResolveSeesOnlyExposure(dv: Value, o1: map<string, Attr>, o2: map<string, Attr>, basePath: string)
    requires SameExposure(o1, o2)
    ensures Resolve(dv, o1, basePath) == Resolve(dv, o2, basePath)
  {
    if dv.VStr? {
      var d := ParseDirective(dv.s);
      if d.field !in UnsafeMetadata {
        var name := ReadName(d);
        assert Exposed(o1, name) == Exposed(o2, name);
      }
    }
  }

  /** The resolved steps depend only on what projection can observe. */
  lemma {:induction false} StepsSeeOnlyExposure(dirs: seq<Value>, o1: map<string, Attr>, o2: map<string, Attr>, basePath: string)
    requires SameExposure(o1, o2)
    ensures Steps(dirs, o1, basePath) == Steps(dirs, o2, basePath)
  {
    if dirs != [] {
      ResolveSeesOnlyExposure(dirs[0], o1, o2, basePath);
      StepsSeeOnlyExposure(dirs[1..], o1, o2, basePath);
    }
  }

  /** Deny-listed fields and the results of callables outside the allow-list
      never reach a row: changing them leaves the projection unchanged. */
  lemma ProjectItemSeesOnlyExposure(dirs: seq<Value>, o1: map<string, Attr>, o2: map<string, Attr>, basePath: string)
    requires SameExposure(o1, o2)
    ensures ProjectItem(dirs, o1, basePath) == ProjectItem(dirs, o2, basePath)
  {
    StepsSeeOnlyExposure(dirs, o1, o2, basePath);
  }

  /** Line 133: the default row. */
  function DefaultRow(item: Item): map<string, Value> {
    map["id" := item.token, "text" := item.title]
  }

  /** A default row holds exactly the item's token under `id` and its title
      under `text`. */
  lemma DefaultRowShape(item: Item)
    ensures DefaultRow(item).Keys == {"id", "text"}
    ensures DefaultRow(item)["id"] == item.token && DefaultRow(item)["text"] == item.title
  {
  }

  /** Lines 131-133: one default row per item, in iteration order. */
  function DefaultRows(items: seq<Item>): (rows: seq<map<string, Value>>)
    ensures |rows| == |items|
    ensures forall i :: 0 <= i < |items| ==> rows[i] == DefaultRow(items[i])
  {
    if items == [] then [] else [DefaultRow(items[0])] + DefaultRows(items[1..])
  }

  /** `for attr in attributes`: the directives a decoded `attributes` value
      yields. A list yields its elements, a dict its keys, text its
      characters; anything else is not iterable. */
  function Directives(attrs: Value): (r: Result<seq<Value>>)
    ensures r.Ok? <==> attrs.VList? || attrs.VDict? || attrs.VStr?
    ensures attrs.VList? ==> r == Ok(attrs.elems)
    ensures attrs.VDict? ==>
      && r.Ok? && |r.value| == |attrs.entries|
      && forall i :: 0 <= i < |attrs.entries| ==> r.value[i] == VStr(attrs.entries[i].0)
    ensures attrs.VStr? ==>
      && r.Ok? && |r.value| == |attrs.s|
      && forall i :: 0 <= i < |attrs.s| ==> r.value[i] == VStr([attrs.s[i]])
  {
    match attrs
    case VList(xs) => Ok(xs)
    case VDict(es) => Ok(seq(|es|, i requires 0 <= i < |es| => VStr(es[i].0)))
    case VStr(s) => Ok(seq(|s|, i requires 0 <= i < |s| => VStr([s[i]])))
    case _ => Err(BadAttributes)
  }

  /** The rows of a projection, and every callable invoked, in call order. */
  datatype Projected = Projected(rows: seq<map<string, Value>>, invoked: seq<string>)

  /** Only allow-listed names. */
  predicate AllowListed(calls: seq<string>) {
    forall c :: c in calls ==> c in SafeCallableMetadata
  }

  /** Lines 110-130, item by item: the rows in iteration order and the calls
      made for each item in turn; the first item that raises aborts. */
  function Collect(results: seq<Result<Row>>): (r: Result<Projected>)
    ensures r.Ok? <==> forall i :: 0 <= i < |results| ==> results[i].Ok?
    ensures r.Ok? ==> |r.value.rows| == |results|
    ensures r.Ok? ==> forall i :: 0 <= i < |results| ==> r.value.rows[i] == results[i].value.fields
    ensures r.Ok? && (forall i :: 0 <= i < |results| ==> AllowListed(results[i].value.calls)) ==>
      AllowListed(r.value.invoked)
  {
    if results == [] then Ok(Projected([], []))
    else
      match results[0]
      case Err(f) => Err(f)
      case Ok(row) =>
        var tail := results[1..];
        assert forall i :: 0 < i < |results| ==> results[i] == tail[i - 1];
        match Collect(tail)
        case Err(f) => Err(f)
        case Ok(rest) =>
          var out := Projected([row.fields] + rest.rows, row.calls + rest.invoked);
          assert forall i :: 0 < i < |results| ==> out.rows[i] == rest.rows[i - 1];
          Ok(out)
  }

  /** The calls a projection reports are exactly the calls of its items'
      rows. */
  lemma {:induction false} CollectInvokedExact(results: seq<Result<Row>>, c: string)
    requires Collect(results).Ok?
    ensures c in Collect(results).value.invoked <==>
      exists i :: 0 <= i < |results| && c in results[i].value.calls
  {
    if results != [] {
      var tail := results[1..];
      CollectInvokedExact(tail, c);
      assert Collect(results).value.invoked == results[0].value.calls + Collect(tail).value.invoked;
      if exists i :: 0 <= i < |tail| && c in tail[i].value.calls {
        var i :| 0 <= i < |tail| && c in tail[i].value.calls;
        assert results[i + 1] == tail[i];
      }
      if exists i :: 0 <= i < |results| && c in results[i].value.calls {
        var i :| 0 <= i < |results| && c in results[i].value.calls;
        if i > 0 {
          assert tail[i - 1] == results[i];
        }
      }
    }
  }

  /** The row, or the fault, of every item under the same directives. */
  function ProjectAll(items: seq<Item>, dirs: seq<Value>, basePath: string): (rs: seq<Result<Row>>)
    ensures |rs| == |items|
    ensures forall i :: 0 <= i < |items| ==> rs[i] == ProjectItem(dirs, items[i].value, basePath)
  {
    if items == [] then []
    else [ProjectItem(dirs, items[0].value, basePath)] + ProjectAll(items[1..], dirs, basePath)
  }

  /** Lines 108-130: one row per item in iteration order. The directives are
      only iterated inside the item loop, so an empty vocabulary never fails. */
  function CustomRows(items: seq<Item>, attrs: Value, basePath: string): (r: Result<Projected>)
    ensures r.Ok? <==> (items == [] ||
      (Directives(attrs).Ok? && forall i :: 0 <= i < |items| ==>
        ProjectItem(Directives(attrs).value, items[i].value, basePath).Ok?))
    ensures r.Ok? ==> |r.value.rows| == |items|
    ensures r.Ok? ==> forall i :: 0 <= i < |items| ==>
      r.value.rows[i] == ProjectItem(Directives(attrs).value, items[i].value, basePath).value.fields
    ensures r.Ok? ==> forall c :: c in r.value.invoked ==> c in SafeCallableMetadata
  {
    if items == [] then Ok(Projected([], []))
    else
      match Directives(attrs)
      case Err(f) => Err(f)
      case Ok(dirs) =>
        var rs := ProjectAll(items, dirs, basePath);
        assert forall i :: 0 <= i < |rs| ==> rs[i].Ok? ==> AllowListed(rs[i].value.calls);
        Collect(rs)
  }

  /** Line 108: a truthy `attributes` selects directive projection; the
      default `{id, text}` rows invoke nothing. */
  function Project(items: seq<Item>, attrs: Value, basePath: string): (r: Result<Projected>)
    ensures !Truthy(attrs) ==> r == Ok(Projected(DefaultRows(items), []))
    ensures Truthy(attrs) ==> r == CustomRows(items, attrs, basePath)
    ensures r.Ok? ==> |r.value.rows| == |items|
  {
    if Truthy(attrs) then CustomRows(items, attrs, basePath)
    else Ok(Projected(DefaultRows(items), []))
  }

  /** Items whose values projection cannot tell apart give the same rows. */
  lemma CustomRowsSeeOnlyExposure(items1: seq<Item>, items2: seq<Item>, attrs: Value, basePath: string)
    requires |items1| == |items2|
    requires forall i :: 0 <= i < |items1| ==> SameExposure(items1[i].value, items2[i].value)
    ensures CustomRows(items1, attrs, basePath) == CustomRows(items2, attrs, basePath)
  {
    if items1 != [] && Directives(attrs).Ok? {
      var dirs := Directives(attrs).value;
      var rs1, rs2 := ProjectAll(items1, dirs, basePath), ProjectAll(items2, dirs, basePath);
      forall i | 0 <= i < |rs1| ensures rs1[i] == rs2[i] {
        ProjectItemSeesOnlyExposure(dirs, items1[i].value, items2[i].value, basePath);
      }
      assert rs1 == rs2;
    }
  }
}

=== FILE: providers.dfy ===
/** Vocabulary factories as the view sees them, and the adaptive dispatch
    that chooses how to call one (plone/app/widgets/browser.py, lines 79-91). */
module Providers {
  import opened Values

  /** An attribute of an item's value: a plain value, or a callable together
      with what calling it returns. */
  datatype Attr = Plain(v: Value) | Callable(result: Value)

  /** A vocabulary term: its token, its title, and the attributes of its value. */
  datatype Item = Item(token: Value, title: Value, value: map<string, Attr>)

  /** What a factory returns. `length` is None when `len()` raises
      AttributeError; `slicable` says whether it provides ISlicableVocabulary. */
  datatype Vocabulary = Vocabulary(slicable: bool, length: Option<nat>, items: seq<Item>)

  datatype Exception = TypeError | ParseError | OtherError

  datatype Reply = Returned(vocabulary: Vocabulary) | Raised(exception: Exception)

  /** The three calling conventions: `(context)`, `(context, query)` and
      `(context, query, batch)`. */
  datatype Invocation = WithContext | WithQuery(query: Value) | WithQueryAndBatch(query: Value, batch: Value)

  /** A registered factory: the argument names of its `__call__` (including
      `self`), and its reply to each way of calling it. */
  datatype Provider = Provider(args: seq<string>, call: Invocation -> Reply)

  /** The factory's calling convention is read off its argument names: the
      third must be `query` to receive the query, and the fourth `batch` to
      receive the batch as well; a falsy query means the context alone. */
  function SelectInvocation(args: seq<string>, query: Value, batch: Value): (c: Invocation)
    ensures c.WithQueryAndBatch? <==>
      Truthy(query) && |args| >= 4 && args[2] == "query" && args[3] == "batch"
    ensures c.WithQuery? <==>
      Truthy(query) && |args| >= 3 && args[2] == "query" && !(|args| >= 4 && args[3] == "batch")
    ensures c.WithContext? <==> !(Truthy(query) && |args| >= 3 && args[2] == "query")
    ensures !c.WithContext? ==> c.query == query
    ensures c.WithQueryAndBatch? ==> c.batch == batch
  {
    if Truthy(query) && |args| >= 3 && args[2] == "query" then
      if |args| >= 4 && args[3] == "batch" then WithQueryAndBatch(query, batch)
      else WithQuery(query)
    else WithContext
  }
}

=== FILE: text.dfy ===
/** The string operations the view relies on, with Python's meaning:
    `str.strip()`, `startswith`/`endswith`, substring `in`, `str.split(sep)`,
    `sep.join(parts)` and the first-occurrence search behind `split`. */
module Text {
  import opened Values

  /** The characters Python 2's `str.strip()` removes. */
  predicate IsSpace(c: char) {
    c == ' ' || c == '\t' || c == '\n' || c == '\r' || c == '\U{0B}' || c == '\U{0C}'
  }

  predicate AllSpace(s: string) {
    forall i :: 0 <= i < |s| ==> IsSpace(s[i])
  }

  /** No whitespace at either end: the shape of every stripped string. */
  predicate Trimmed(t: string) {
    t == [] || (!IsSpace(t[0]) && !IsSpace(t[|t| - 1]))
  }

  /** The length of the whitespace run that starts `s`. */
  function LeadingSpace(s: string): (k: nat)
    ensures k <= |s|
    ensures AllSpace(s[..k])
    ensures k < |s| ==> !IsSpace(s[k])
  {
    if |s| == 0 || !IsSpace(s[0]) then 0
    else
      var k' := LeadingSpace(s[1..]);
      assert s[..k' + 1] == [s[0]] + s[1..][..k'];
      k' + 1
  }

  /** The length of the whitespace run that ends `s`. */
  function TrailingSpace(s: string): (k: nat)
    ensures k <= |s|
    ensures AllSpace(s[|s| - k..])
    ensures k < |s| ==> !IsSpace(s[|s| - k - 1])
  {
    if |s| == 0 || !IsSpace(s[|s| - 1]) then 0
    else
      var t := s[..|s| - 1];
      var k' := TrailingSpace(t);
      var tail := s[|s| - (k' + 1)..];
      assert AllSpace(tail) by {
        forall i | 0 <= i < |tail| ensures IsSpace(tail[i]) {
          if i < k' {
            assert tail[i] == t[|t| - k'..][i];
          }
        }
      }
      k' + 1
  }

  /** Python's `s.strip()`: `s` is the result padded on both sides with
      whitespace, and the result itself has none at either end. */
  function Strip(s: string): (r: string)
    ensures Trimmed(r)
    ensures LeadingSpace(s) + |r| <= |s|
    ensures r == s[LeadingSpace(s)..LeadingSpace(s) + |r|]
    ensures AllSpace(s[LeadingSpace(s) + |r|..])
  {
    var lo := LeadingSpace(s);
    var rest := s[lo..];
    var r := rest[..|rest| - TrailingSpace(rest)];
    CoreIsTrimmed(s, lo, rest, r);
    CoreOfPadding(s, lo, rest, r);
    r
  }

  lemma CoreIsTrimmed(s: string, lo: nat, rest: string, r: string)
    requires lo == LeadingSpace(s) && rest == s[lo..]
    requires r == rest[..|rest| - TrailingSpace(rest)]
    ensures Trimmed(r)
  {
    if r != [] {
      assert r[0] == s[lo];
      assert r[|r| - 1] == rest[|rest| - TrailingSpace(rest) - 1];
    }
  }

  lemma CoreOfPadding(s: string, lo: nat, rest: string, r: string)
    requires lo == LeadingSpace(s) && rest == s[lo..]
    requires r == rest[..|rest| - TrailingSpace(rest)]
    ensures lo + |r| <= |s|
    ensures r == s[lo..lo + |r|]
    ensures AllSpace(s[lo + |r|..])
  {
    var k := TrailingSpace(rest);
    assert rest[|rest| - k..] == s[lo + |r|..];
  }

  lemma SpacesOnly(s: string)
    requires AllSpace(s)
    ensures LeadingSpace(s) == |s|
  {
  }

  lemma {:induction false} LeadingSpaceOfPadded(a: string, u: string)
    requires AllSpace(a) && u != [] && !IsSpace(u[0])
    ensures LeadingSpace(a + u) == |a|
    decreases |a|
  {
    if a != [] {
      assert (a + u)[1..] == a[1..] + u;
      LeadingSpaceOfPadded(a[1..], u);
    }
  }

  lemma {:induction false} TrailingSpaceOfPadded(u: string, b: string)
    requires AllSpace(b) && u != [] && !IsSpace(u[|u| - 1])
    ensures TrailingSpace(u + b) == |b|
    decreases |b|
  {
    if b != [] {
      assert (u + b)[..|u + b| - 1] == u + b[..|b| - 1];
      TrailingSpaceOfPadded(u, b[..|b| - 1]);
    }
  }

  /** Stripping has exactly one answer: whatever whitespace padding surrounds
      a trimmed string, `strip()` recovers that string. */
  lemma StripUnique(a: string, t: string, b: string)
    requires AllSpace(a) && AllSpace(b) && Trimmed(t)
    ensures Strip(a + t + b) == t
  {
    var s := a + t + b;
    if t == [] {
      assert AllSpace(s) by {
        forall i | 0 <= i < |s| ensures IsSpace(s[i]) {
          if i < |a| { assert s[i] == a[i]; } else { assert s[i] == b[i - |a|]; }
        }
      }
      SpacesOnly(s);
    } else {
      assert s == a + (t + b);
      LeadingSpaceOfPadded(a, t + b);
      assert s[|a|..] == t + b;
      TrailingSpaceOfPadded(t, b);
      assert (t + b)[..|t|] == t;
    }
  }

  /** `strip()` is idempotent. */
  lemma StripIdempotent(s: string)
    ensures Strip(Strip(s)) == Strip(s)
  {
    var t := Strip(s);
    assert [] + t + [] == t;
    StripUnique([], t, []);
  }

  /** `t.startswith(p)` */
  predicate StartsWith(t: string, p: string) {
    |p| <= |t| && t[..|p|] == p
  }

  /** `t.endswith(p)` */
  predicate EndsWith(t: string, p: string) {
    |p| <= |t| && t[|t| - |p|..] == p
  }

  /** `needle in hay` for two strings: `needle` occurs somewhere in `hay`. */
  predicate Occurs(needle: string, hay: string)
    decreases |hay|
  {
    StartsWith(hay, needle) || (|hay| > 0 && Occurs(needle, hay[1..]))
  }

  /** A string occurs in any string built around it. */
  lemma {:induction false} OccursInside(a: string, n: string, b: string)
    ensures Occurs(n, a + n + b)
    decreases |a|
  {
    if a == [] {
      assert (a + n + b)[..|n|] == n;
    } else {
      assert (a + n + b)[1..] == a[1..] + n + b;
      OccursInside(a[1..], n, b);
    }
  }

  /** The first position of `c` in `s`, as `s.find(c)` finds it. */
  function IndexOf(s: string, c: char): (r: Option<nat>)
    ensures r.None? <==> c !in s
    ensures r.Some? ==> r.value < |s| && s[r.value] == c && c !in s[..r.value]
  {
    if |s| == 0 then None
    else if s[0] == c then Some(0)
    else
      match IndexOf(s[1..], c)
      case None => None
      case Some(k) =>
        assert s[..k + 1] == [s[0]] + s[1..][..k];
        Some(k + 1)
  }

  /** Python's `s.split(sep)` for a one-character separator. */
  function Split(s: string, sep: char): (parts: seq<string>)
    ensures |parts| >= 1
    ensures forall i :: 0 <= i < |parts| ==> sep !in parts[i]
    decreases |s|
  {
    match IndexOf(s, sep)
    case None => [s]
    case Some(k) => [s[..k]] + Split(s[k + 1..], sep)
  }

  /** Python's `sep.join(parts)` for a one-character separator. */
  function Join(parts: seq<string>, sep: char): string
  {
    if |parts| == 0 then ""
    else if |parts| == 1 then parts[0]
    else parts[0] + [sep] + Join(parts[1..], sep)
  }

  /** Splitting and joining again gives back the original string. */
  lemma {:induction false} JoinSplit(s: string, sep: char)
    ensures Join(Split(s, sep), sep) == s
    decreases |s|
  {
    match IndexOf(s, sep)
    case None =>
    case Some(k) =>
      var rest := Split(s[k + 1..], sep);
      JoinSplit(s[k + 1..], sep);
      assert Split(s, sep) == [s[..k]] + rest;
      assert ([s[..k]] + rest)[1..] == rest;
      assert s == s[..k] + [sep] + s[k + 1..];
  }

  /** The first occurrence of `c` in `a + [c] + b` is right after `a` when
      `a` has none. */
  lemma {:induction false} IndexOfAfter(a: string, c: char, b: string)
    requires c !in a
    ensures IndexOf(a + [c] + b, c) == Some(|a|)
    decreases |a|
  {
    if a != [] {
      assert (a + [c] + b)[1..] == a[1..] + [c] + b;
      IndexOfAfter(a[1..], c, b);
    }
  }

  /** Joining separator-free parts and splitting again gives back the parts. */
  lemma {:induction false} SplitJoin(parts: seq<string>, sep: char)
    requires |parts| >= 1
    requires forall i :: 0 <= i < |parts| ==> sep !in parts[i]
    ensures Split(Join(parts, sep), sep) == parts
    decreases |parts|
  {
    if |parts| == 1 {
      assert sep !in parts[0];
    } else {
      var head := parts[0];
      var tail := Join(parts[1..], sep);
      var s := head + [sep] + tail;
      assert sep !in head;
      IndexOfAfter(head, sep, tail);
      assert s[..|head|] == head;
      assert s[|head| + 1..] == tail;
      assert Split(s, sep) == [head] + Split(tail, sep);
      SplitJoin(parts[1..], sep);
      assert parts == [head] + parts[1..];
    }
  }
}

=== FILE: values.dfy ===
/** Python values as the vocabulary view sees them: request parameters after
    decoding, the attributes of vocabulary items, and the entries of the JSON
    reply. Also the failure-compatible wrappers the pipeline threads through. */
module Values {

  datatype Option<+T> = None | Some(value: T) {
    /** The wrapped value, or `default` when there is none. */
    function GetOr(default: T): T {
      match this
      case Some(v) => v
      case None => default
    }
  }

  /** The exceptions the view lets escape, other than Unauthorized. Each one
      stands for a Python exception raised outside any `try`. */
  datatype Fault =
    | MalformedJson     // json.loads rejected a bracket-delimited parameter
    | ProviderFailed    // the factory raised something other than TypeError or ParseError
    | BadBatch          // `in`, indexing or arithmetic on the batch raised TypeError
    | BadAttributes     // the directives could not be iterated, or one was not a string
    | UnsliceablePath   // the value read for a `path` directive cannot be sliced

  datatype Result<+T> = Ok(value: T) | Err(fault: Fault) {
    predicate IsFailure() {
      Err?
    }

    function PropagateFailure<U>(): Result<U>
      requires Err?
    {
      Err(fault)
    }

    function Extract(): T
      requires Ok?
    {
      value
    }
  }

  /** A Python value. A dict is given by its entries in iteration order;
      JSON objects decode to `VDict`, arrays to `VList`. */
  datatype Value =
    | VNone
    | VBool(b: bool)
    | VInt(i: int)
    | VStr(s: string)
    | VList(elems: seq<Value>)
    | VDict(entries: seq<(string, Value)>)

  /** Python truthiness: empty strings, containers, zero, False and None are false. */
  predicate Truthy(v: Value) {
    match v
    case VNone => false
    case VBool(b) => b
    case VInt(i) => i != 0
    case VStr(s) => s != ""
    case VList(xs) => xs != []
    case VDict(es) => es != []
  }

  /** `key in d` for a dict with entries `entries`. */
  predicate HasKey(entries: seq<(string, Value)>, key: string) {
    exists i :: 0 <= i < |entries| && entries[i].0 == key
  }

  /** No key occurs twice. A Python dict has this by construction; a `VDict`
      that lacks it stands for no dict at all, and `Lookup` then reads the
      first entry for a key. */
  predicate DistinctKeys(entries: seq<(string, Value)>) {
    forall i, j :: 0 <= i < j < |entries| ==> entries[i].0 != entries[j].0
  }

  /** With distinct keys, `Lookup` finds the value stored under a key,
      wherever that entry sits. */
  lemma {:induction false} LookupDistinct(entries: seq<(string, Value)>, key: string, v: Value)
    requires DistinctKeys(entries) && (key, v) in entries
    ensures Lookup(entries, key) == Some(v)
  {
    if entries[0] != (key, v) {
      assert (key, v) in entries[1..];
      assert entries[0].0 != key by {
        var j :| 0 <= j < |entries| && entries[j] == (key, v);
        assert j != 0;
      }
      LookupDistinct(entries[1..], key, v);
    }
  }

  /** `d[key]` for a dict with entries `entries`; None where Python raises KeyError. */
  function Lookup(entries: seq<(string, Value)>, key: string): (r: Option<Value>)
    ensures r.Some? <==> HasKey(entries, key)
    ensures r.Some? ==> (key, r.value) in entries
  {
    if |entries| == 0 then None
    else if entries[0].0 == key then Some(entries[0].1)
    else
      var r := Lookup(entries[1..], key);
      assert HasKey(entries[1..], key) ==> HasKey(entries, key) by {
        if HasKey(entries[1..], key) {
          var i :| 0 <= i < |entries[1..]| && entries[1..][i].0 == key;
          assert entries[i + 1].0 == key;
        }
      }
      assert HasKey(entries, key) ==> HasKey(entries[1..], key) by {
        if HasKey(entries, key) {
          var i :| 0 <= i < |entries| && entries[i].0 == key;
          assert i != 0;
          assert entries[1..][i - 1].0 == key;
        }
      }
      r
  }
}

=== FILE: view.dfy ===
/** `VocabularyView.__call__` (plone/app/widgets/browser.py, lines 31-141):
    the whole request pipeline as one function from a request and its
    environment to an outcome, with the properties that tie the stages
    together. */
module VocabularyView {
  import opened Values
  import opened Text
  import opened Providers
  import Gate
  import opened Params
  import opened Batching
  import opened Projection

  /** The request parameters. An absent `query`, `attributes` or `batch` is
      the empty string, as `request.get(key, '')` gives it; an absent `name`
      is None. */
  datatype Request = Request(name: Option<string>, query: Value, attributes: Value, batch: Value)

  /** What the view consults besides the request: the permission check on the
      context, the factory registry, the context's physical path and the JSON
      parser (None where `json.loads` raises; the dicts it yields have
      `DistinctKeys`, each key holding the last value the text gave it). */
  datatype Env = Env(
    granted: string -> bool,
    registry: map<string, Provider>,
    physicalPath: seq<string>,
    parse: string -> Option<Value>)

  /** What the view produces. `ErrorMsg(m)` is the body `{"error": m}`;
      `SoftError` is the body of `VocabularyView.error`, namely
      `{"results": [], "total": 0, "error": true}`; `Results` is the body
      `{"results": ..., "total": ...}` together with the callables invoked to
      build it; `RaiseUnauthorized` and `Crash` are exceptions that escape. */
  datatype Outcome =
    | ErrorMsg(message: string)
    | RaiseUnauthorized
    | SoftError
    | Results(results: seq<map<string, Value>>, total: int, invoked: seq<string>)
    | Crash(fault: Fault)

  const NoFactoryProvided: string := "No factory provided."
  const LookupNotAllowed: string := "Vocabulary lookup not allowed"
  const NoSuchFactoryPrefix: string := "No factory with name \""
  const NoSuchFactorySuffix: string := "\" exists."

  /** The message for an allow-listed name with no registered factory names
      that factory. */
  function NoSuchFactory(name: string): (m: string)
    ensures Occurs(name, m)
  {
    OccursInside(NoSuchFactoryPrefix, name, NoSuchFactorySuffix);
    NoSuchFactoryPrefix + name + NoSuchFactorySuffix
  }

  /** The decoded `query`, `attributes` and `batch`. */
  datatype Decoded = Decoded(query: Value, attributes: Value, batch: Value)

  /** Lines 74-78: the three parameters are decoded in this order, and the
      first malformed one aborts the request. */
  function Decode(req: Request, parse: string -> Option<Value>): (r: Result<Decoded>)
    ensures r.Ok? <==>
      ParseJson(req.query, parse).Ok? && ParseJson(req.attributes, parse).Ok? && ParseJson(req.batch, parse).Ok?
    ensures r.Ok? ==>
      && r.value.query == ParseJson(req.query, parse).value
      && r.value.attributes == DecodeAttributes(req.attributes, parse).value
      && r.value.batch == ParseJson(req.batch, parse).value
    ensures r.Err? ==> r.fault == MalformedJson
  {
    var query :- ParseJson(req.query, parse);
    var attributes :- DecodeAttributes(req.attributes, parse);
    var batch :- ParseJson(req.batch, parse);
    Ok(Decoded(query, attributes, batch))
  }

  /** The known size the reply reports: a reported length of 0 counts as
      unknown, exactly like a missing one. */
  function KnownLength(v: Vocabulary): nat {
    v.length.GetOr(0)
  }

  /** Lines 98-104: the items left after batching. Slicing happens only for a
      batch naming both `page` and `size`, on a slicable vocabulary. */
  function Batched(v: Vocabulary, batch: Value): (r: Result<seq<Item>>)
    ensures r.Ok? ==> |r.value| <= |v.items|
    ensures Requested(batch) == Ok(false) ==> r == Ok(v.items)
    ensures Requested(batch).Ok? && !v.slicable ==> r == Ok(v.items)
    ensures Requested(batch).Err? ==> r.Err?
    ensures Requested(batch) == Ok(true) && v.slicable ==> r == Page(v.items, batch)
  {
    var requested :- Requested(batch);
    if requested && Truthy(batch) && v.slicable then Page(v.items, batch) else Ok(v.items)
  }

  /** Lines 93-141, from the factory's answer to the reply: `total` from the
      length before slicing, the batch window on a slicable vocabulary, the
      projection, and the fallback of `total` to the number of rows. */
  function Shape(v: Vocabulary, attrs: Value, batch: Value, basePath: string): (o: Outcome)
    ensures o.Results? || o.Crash?
    ensures o.Results? ==> |o.results| <= |v.items|
    ensures o.Results? && (!v.slicable || Requested(batch) == Ok(false)) ==> |o.results| == |v.items|
    ensures o.Results? ==> o.total == (if KnownLength(v) != 0 then KnownLength(v) else |o.results|)
    ensures o.Results? && v.length.Some? && v.length.value >= |v.items| ==> o.total >= |o.results|
    ensures o.Results? ==> forall c :: c in o.invoked ==> c in SafeCallableMetadata
  {
    var total := KnownLength(v);
    match Batched(v, batch)
    case Err(f) => Crash(f)
    case Ok(items) =>
      match Project(items, attrs, basePath)
      case Err(f) => Crash(f)
      case Ok(p) => Results(p.rows, if total == 0 then |p.rows| else total, p.invoked)
  }

  /** Lines 79-141 for an admitted factory: decode, call it the way its
      argument names ask for, turn TypeError and ParseError into the soft
      error reply, and shape whatever it returns. */
  function Serve(p: Provider, req: Request, env: Env): (o: Outcome)
    ensures Decode(req, env.parse).Err? ==> o == Crash(MalformedJson)
    ensures o.Results? ==> forall c :: c in o.invoked ==> c in SafeCallableMetadata
  {
    match Decode(req, env.parse)
    case Err(f) => Crash(f)
    case Ok(d) =>
      match p.call(SelectInvocation(p.args, d.query, d.batch))
      case Raised(e) => if e == OtherError then Crash(ProviderFailed) else SoftError
      case Returned(v) => Shape(v, d.attributes, d.batch, Join(env.physicalPath, '/'))
  }

  /** `VocabularyView.__call__`. The gate's refusals come in a fixed order and
      none of them calls a factory; a refusal for lack of permission is raised,
      never answered with an error body. */
  function Call(req: Request, env: Env): (o: Outcome)
    ensures (req.name.None? || req.name.value == "") ==> o == ErrorMsg(NoFactoryProvided)
    ensures req.name.Some? && req.name.value != "" && req.name.value !in Gate.Permissions ==>
      o == ErrorMsg(LookupNotAllowed)
    ensures o.RaiseUnauthorized? <==>
      req.name.Some? && req.name.value in Gate.Permissions && !env.granted(Gate.Permissions[req.name.value])
    ensures (req.name.Some? && req.name.value in Gate.Permissions && env.granted(Gate.Permissions[req.name.value])
             && req.name.value !in env.registry) ==> o == ErrorMsg(NoSuchFactory(req.name.value))
    ensures o.Results? ==> forall c :: c in o.invoked ==> c in SafeCallableMetadata
  {
    match Gate.Check(req.name, env.granted, env.registry)
    case NoName => ErrorMsg(NoFactoryProvided)
    case NotAllowed => ErrorMsg(LookupNotAllowed)
    case Denied => RaiseUnauthorized
    case NoFactory(n) => ErrorMsg(NoSuchFactory(n))
    case Admitted(p) => Serve(p, req, env)
  }

  /** The request passes the gate with factory `p`. */
  ghost predicate AdmittedWith(req: Request, env: Env, p: Provider) {
    && req.name.Some?
    && req.name.value in Gate.Permissions
    && env.granted(Gate.Permissions[req.name.value])
    && req.name.value in env.registry
    && env.registry[req.name.value] == p
  }

  /** An admitted request is answered by its factory. */
  lemma AdmittedIsServed(req: Request, env: Env, p: Provider)
    requires AdmittedWith(req, env, p)
    ensures Call(req, env) == Serve(p, req, env)
  {
    assert Gate.Check(req.name, env.granted, env.registry) == Gate.Admitted(p);
  }

  /** A TypeError or ParseError from the factory call yields exactly the soft
      error reply; any other exception escapes the view. */
  lemma InvocationErrorIsSoft(req: Request, env: Env, p: Provider, d: Decoded, e: Exception)
    requires AdmittedWith(req, env, p)
    requires Decode(req, env.parse) == Ok(d)
    requires p.call(SelectInvocation(p.args, d.query, d.batch)) == Raised(e)
    ensures e != OtherError ==> Call(req, env) == SoftError
    ensures e == OtherError ==> Call(req, env) == Crash(ProviderFailed)
  {
    AdmittedIsServed(req, env, p);
  }

  /** A parameter that is not valid JSON aborts an admitted request before
      the factory is called: the parser's error escapes the view. */
  lemma MalformedParameterCrashes(req: Request, env: Env, p: Provider)
    requires AdmittedWith(req, env, p)
    requires Decode(req, env.parse).Err?
    ensures Call(req, env) == Crash(MalformedJson)
  {
    AdmittedIsServed(req, env, p);
  }

  /** An admitted, well-formed request whose factory returns a vocabulary is
      answered by shaping that vocabulary with the request's own decoded
      attributes and batch, under the context's physical path. */
  lemma AdmittedReplyIsShape(req: Request, env: Env, p: Provider, d: Decoded, v: Vocabulary)
    requires AdmittedWith(req, env, p)
    requires Decode(req, env.parse) == Ok(d)
    requires p.call(SelectInvocation(p.args, d.query, d.batch)) == Returned(v)
    ensures Call(req, env) == Shape(v, d.attributes, d.batch, Join(env.physicalPath, '/'))
  {
    AdmittedIsServed(req, env, p);
  }

  /** The request with no `query`, `attributes` or `batch`. */
  predicate Bare(req: Request) {
    req.query == VStr("") && req.attributes == VStr("") && req.batch == VStr("")
  }

  /** An admitted request without query, attributes or batch calls the factory
      with the context alone and lists every item as `{id: token, text: title}`;
      when the vocabulary knows its length, that is the total. */
  lemma BareRequestListsEveryItem(req: Request, env: Env, p: Provider, v: Vocabulary)
    requires AdmittedWith(req, env, p) && Bare(req)
    requires p.call(WithContext) == Returned(v)
    requires v.length.None? || v.length == Some(|v.items|)
    ensures Call(req, env) == Results(DefaultRows(v.items), |v.items|, [])
  {
    assert Gate.Check(req.name, env.granted, env.registry) == Gate.Admitted(p);
    BareDecodes(req, env.parse);
    assert SelectInvocation(p.args, VStr(""), VStr("")) == WithContext;
    UnbatchedDefaultShape(v, Join(env.physicalPath, '/'));
  }

  lemma BareDecodes(req: Request, parse: string -> Option<Value>)
    requires Bare(req)
    ensures Decode(req, parse) == Ok(Decoded(VStr(""), VStr(""), VStr("")))
  {
    assert Strip("") == "";
  }

  lemma UnbatchedDefaultShape(v: Vocabulary, basePath: string)
    ensures Shape(v, VStr(""), VStr(""), basePath)
      == Results(DefaultRows(v.items), if KnownLength(v) != 0 then KnownLength(v) else |v.items|, [])
  {
    assert !Occurs("size", "");
    assert Batched(v, VStr("")) == Ok(v.items);
  }

  /** A batch is ignored when it lacks `page` or `size`, or when the
      vocabulary is not slicable: the reply is the one without any batch. */
  lemma UnusableBatchIsIgnored(v: Vocabulary, attrs: Value, batch: Value, basePath: string)
    requires Requested(batch) == Ok(false) || (Requested(batch).Ok? && !v.slicable)
    ensures Shape(v, attrs, batch, basePath) == Shape(v, attrs, VStr(""), basePath)
  {
    assert !Occurs("size", "");
  }

  /** A dict batch with a 1-based `page` and a non-negative `size` on a
      slicable vocabulary lists exactly the items of that page window, while
      `total` still reports the length from before slicing when it is known. */
  lemma PageOfDefaultRows(v: Vocabulary, attrs: Value, es: seq<(string, Value)>, basePath: string, page: int, size: int)
    requires v.slicable && !Truthy(attrs)
    requires Lookup(es, "page") == Some(VInt(page)) && Lookup(es, "size") == Some(VInt(size))
    requires page >= 1 && size >= 0
    ensures var window := Window(v.items, PageStart(page, size), size);
      Shape(v, attrs, VDict(es), basePath)
        == Results(DefaultRows(window), if KnownLength(v) != 0 then KnownLength(v) else |window|, [])
  {
    var window := Window(v.items, PageStart(page, size), size);
    PageBatch(v, es, page, size);
    assert Project(window, attrs, basePath) == Ok(Projected(DefaultRows(window), []));
  }

  /** The same page window with `attributes` given: the directive rows are
      built from the items of the window only, and an item of the window on
      which a directive raises makes the whole reply raise. */
  lemma PageOfCustomRows(v: Vocabulary, attrs: Value, es: seq<(string, Value)>, basePath: string, page: int, size: int)
    requires v.slicable && Truthy(attrs)
    requires Lookup(es, "page") == Some(VInt(page)) && Lookup(es, "size") == Some(VInt(size))
    requires page >= 1 && size >= 0
    ensures Shape(v, attrs, VDict(es), basePath) ==
      match CustomRows(Window(v.items, PageStart(page, size), size), attrs, basePath)
      case Err(f) => Crash(f)
      case Ok(pr) => Results(pr.rows, if KnownLength(v) != 0 then KnownLength(v) else |pr.rows|, pr.invoked)
  {
    PageBatch(v, es, page, size);
  }

  /** The reply raises exactly when batching or projecting the batched items
      raises, with that fault; otherwise its rows and calls are those of the
      projection of the batched items. */
  lemma ShapeCrashes(v: Vocabulary, attrs: Value, batch: Value, basePath: string)
    ensures Shape(v, attrs, batch, basePath).Crash? <==>
      Batched(v, batch).Err? || Project(Batched(v, batch).value, attrs, basePath).Err?
    ensures Batched(v, batch).Err? ==> Shape(v, attrs, batch, basePath) == Crash(Batched(v, batch).fault)
    ensures Batched(v, batch).Ok? && Project(Batched(v, batch).value, attrs, basePath).Err? ==>
      Shape(v, attrs, batch, basePath) == Crash(Project(Batched(v, batch).value, attrs, basePath).fault)
    ensures var o := Shape(v, attrs, batch, basePath);
      o.Results? ==> Project(Batched(v, batch).value, attrs, basePath) == Ok(Projected(o.results, o.invoked))
  {
  }

  lemma PageBatch(v: Vocabulary, es: seq<(string, Value)>, page: int, size: int)
    requires v.slicable
    requires Lookup(es, "page") == Some(VInt(page)) && Lookup(es, "size") == Some(VInt(size))
    requires page >= 1 && size >= 0
    ensures Batched(v, VDict(es)) == Ok(Window(v.items, PageStart(page, size), size))
  {
    assert Requested(VDict(es)) == Ok(true) && Truthy(VDict(es)) by {
      assert HasKey(es, "page") && HasKey(es, "size");
    }
    PageIsWindow(v.items, es, page, size);
  }

  lemma PageIsWindow(items: seq<Item>, es: seq<(string, Value)>, page: int, size: int)
    requires Lookup(es, "page") == Some(VInt(page)) && Lookup(es, "size") == Some(VInt(size))
    requires page >= 1 && size >= 0
    ensures Page(items, VDict(es)) == Ok(Window(items, PageStart(page, size), size))
  {
    var start := PageStart(page, size);
    assert IntOf(Lookup(es, "page")) == Ok(page);
    assert IntOf(Lookup(es, "size")) == Ok(size);
    assert Page(items, VDict(es)).Ok?;
    assert Page(items, VDict(es)).value == PySlice(items, start, start + size);
    SliceWindow(items, start, size);
  }

  /** Two lists of items that agree on tokens and titles and whose values
      projection cannot tell apart. */
  ghost predicate Indistinguishable(items1: seq<Item>, items2: seq<Item>) {
    && |items1| == |items2|
    && forall i :: 0 <= i < |items1| ==>
      && items1[i].token == items2[i].token
      && items1[i].title == items2[i].title
      && SameExposure(items1[i].value, items2[i].value)
  }

  lemma {:induction false} DefaultRowsSeeOnlyTokensAndTitles(items1: seq<Item>, items2: seq<Item>)
    requires Indistinguishable(items1, items2)
    ensures DefaultRows(items1) == DefaultRows(items2)
  {
    var r1, r2 := DefaultRows(items1), DefaultRows(items2);
    forall i | 0 <= i < |r1| ensures r1[i] == r2[i] {
      assert items1[i].token == items2[i].token && items1[i].title == items2[i].title;
    }
  }

  lemma {:induction false} SlicesStayIndistinguishable(items1: seq<Item>, items2: seq<Item>, start: int, end: int)
    requires Indistinguishable(items1, items2)
    ensures Indistinguishable(PySlice(items1, start, end), PySlice(items2, start, end))
  {
    var s1, s2 := PySlice(items1, start, end), PySlice(items2, start, end);
    var b := Bound(start, |items1|);
    forall j | 0 <= j < |s1| ensures s1[j] == items1[b + j] {
    }
  }

  lemma PagesStayIndistinguishable(items1: seq<Item>, items2: seq<Item>, batch: Value)
    requires Indistinguishable(items1, items2)
    ensures Page(items1, batch).Ok? == Page(items2, batch).Ok?
    ensures Page(items1, batch).Ok? ==> Indistinguishable(Page(items1, batch).value, Page(items2, batch).value)
  {
    if Page(items1, batch).Ok? {
      var page := IntOf(Lookup(batch.entries, "page")).value;
      var size := IntOf(Lookup(batch.entries, "size")).value;
      var start := PageStart(page, size);
      SlicesStayIndistinguishable(items1, items2, start, start + size);
    }
  }

  lemma ProjectSeesOnlyExposure(items1: seq<Item>, items2: seq<Item>, attrs: Value, basePath: string)
    requires Indistinguishable(items1, items2)
    ensures Project(items1, attrs, basePath) == Project(items2, attrs, basePath)
  {
    if Truthy(attrs) {
      CustomRowsSeeOnlyExposure(items1, items2, attrs, basePath);
    } else {
      DefaultRowsSeeOnlyTokensAndTitles(items1, items2);
    }
  }

  /** The reply never depends on a deny-listed field of an item, nor on what
      a callable outside the allow-list would return: vocabularies that differ
      only there get the same reply. */
  lemma ReplySeesOnlyExposure(v1: Vocabulary, v2: Vocabulary, attrs: Value, batch: Value, basePath: string)
    requires v1.slicable == v2.slicable && v1.length == v2.length
    requires Indistinguishable(v1.items, v2.items)
    ensures Shape(v1, attrs, batch, basePath) == Shape(v2, attrs, batch, basePath)
  {
    BatchesStayIndistinguishable(v1, v2, batch);
    assert KnownLength(v1) == KnownLength(v2);
    if Batched(v1, batch).Ok? {
      var b1, b2 := Batched(v1, batch).value, Batched(v2, batch).value;
      ProjectSeesOnlyExposure(b1, b2, attrs, basePath);
      assert Project(b1, attrs, basePath) == Project(b2, attrs, basePath);
    }
  }

  lemma BatchesStayIndistinguishable(v1: Vocabulary, v2: Vocabulary, batch: Value)
    requires v1.slicable == v2.slicable
    requires Indistinguishable(v1.items, v2.items)
    ensures Batched(v1, batch).Ok? == Batched(v2, batch).Ok?
    ensures Batched(v1, batch).Ok? ==> Indistinguishable(Batched(v1, batch).value, Batched(v2, batch).value)
  {
    PagesStayIndistinguishable(v1.items, v2.items, batch);
  }
}
